=== FILE: README.md ===
# ZoI backend request handlers in Dafny

The backend has two HTTP endpoints, written twice. `/v1/zoiUpload` runs a
zone-of-inhibition detection script on an uploaded Petri-dish image.
`/v1/checkZoI` looks the image up in a reference CSV of measured disk
diameters. `backend/src/index.ts` defines both as inline express routes.
`backend/src/controllers/zoiUpload.controller.ts` has its own copies,
`zoiUploadHandler` and `checkZoIHandler`. The copies differ in these ways:
the controller probes for a Python interpreter and builds an `imageUrl`.
Its upload 200 sends `zoi: data.zoi` where `index.ts` sends the whole
parsed output as `zoi`, so for the bare list the detection script prints the
controller's `zoi` is `undefined`. Its checkZoI removes the first `"mm"`
from each CSV cell and converts the rest with `Number(...)`.

This project models the decision logic of all four handlers as pure
functions. Each takes what the request and the outside world supply and
returns the response sent:

- `optional.dfy`: `Option`.
- `js_text.dfy` (`JsText`): the JavaScript string operations the handlers
  use. These are `trim`, `split` on one character, `replace(pat, '')`
  (first occurrence only), `indexOf`, and `toLowerCase` on ASCII letters.
- `posix_path.dfy` (`PosixPath`): Node's posix `path.extname`,
  `path.basename(p)` and `path.basename(p, suffix)`. This includes their
  edge cases: dot-files have no extension, `".."` has none, and trailing
  slashes are ignored.
- `http.dfy` (`Http`): the response type with its status codes and the
  fixed texts. It also has the guard every handler runs first:
  - a 400 `No file uploaded.` without `files.image`;
  - a 400 `Invalid file type. Only PNG/JPG allowed.` unless the lower-cased
    `extname` is `.png`, `.jpg` or `.jpeg`.

  It also defines the CSV key `path.basename(name, ext)`.
- `zoi_csv.dfy` (`ZoiCsv`): the CSV lookup.
  - The text is split on `\n` and blank lines are dropped.
  - Fewer than two lines is "CSV is empty".
  - The header's cells after the first are the disk columns.
  - The first data row whose trimmed first cell equals the key gives one
    entry per non-empty trimmed disk cell, in column order.

  `Variant` selects the index route, which keeps the cell text, or the
  controller, which removes the first `"mm"`.
- `routes.dfy` (`Routes`): the handlers. `CheckZoI` serves both checkZoI
  copies. `ControllerUpload` and `IndexUpload` are the two upload handlers.
  `ResultImageUrl` builds the controller's `imageUrl`.

The model follows the source where the source is surprising:

- The CSV key comes from `path.basename(file.name, ext)` with the
  *lower-cased* extension. The guard accepts `Plate.PNG`, but basename does
  not strip `.PNG` when given `.png`, so the key is `Plate.PNG`. For
  `plate.png` the key is `plate` (`Http.LookupKeyOfPlainName`).
- `zoiUpload.controller.ts` imports `RESULT_DIR` from `../index`, but the
  `index.ts` in this repository declares no such export. `RESULT_DIR` is
  then `undefined`, and `path.join(RESULT_DIR, file.name)` throws before
  the file is moved, so as written every admitted upload to the controller
  ends in express's default 500. The model assumes a defined directory (see
  `Routes.ControllerUpload` under "Left out").

## Model

| member | source | states |
|---|---|---|
| `JsText.IsSpace` | backend/src/index.ts:111 | The whitespace set `trim` removes: ECMAScript's WhiteSpace and LineTerminator characters. Its effect on `trim` is stated by `JsText.TrimSpec` and `JsText.TrimEmptyIffBlank`. |
| `JsText.TrimStart` | backend/src/index.ts:111 | Removing leading whitespace never lengthens a line. |
| `JsText.TrimEnd` | backend/src/index.ts:111 | Removing trailing whitespace never lengthens a line. |
| `JsText.TrimStartSpec` | backend/src/index.ts:111 | The removed prefix is all whitespace. What remains is a final part of the line and starts with a non-whitespace character or is empty. |
| `JsText.TrimEndSpec` | backend/src/index.ts:111 | The removed suffix is all whitespace. What remains is an initial part of the line and ends with a non-whitespace character or is empty. |
| `JsText.Trim` | backend/src/index.ts:111 | `String.prototype.trim`, as trailing-whitespace removal after leading-whitespace removal. What it returns is stated by `JsText.TrimSpec` and `JsText.TrimEmptyIffBlank`. |
| `JsText.TrimSpec` | backend/src/index.ts:116 | `trim` returns an infix of the string with whitespace on both sides of it, and the infix neither starts nor ends with whitespace. |
| `JsText.TrimEmptyIffBlank` | backend/src/index.ts:111 | `line.trim().length > 0` holds exactly when the line is not all whitespace. |
| `JsText.Split` | backend/src/index.ts:111 | `split` always yields at least one piece, and no piece contains the separator. |
| `JsText.JoinSplit` | backend/src/index.ts:111 | Joining the pieces of a split with the separator restores the text. |
| `JsText.SplitWithoutSeparator` | backend/src/index.ts:123 | A line without a comma splits into itself, so its first cell is the whole line. |
| `JsText.SplitAppend` | backend/src/index.ts:111 | The lines of `a\nb` are the lines of a followed by the lines of b. |
| `JsText.SplitJoin` | backend/src/index.ts:131 | Splitting a comma-joined list of comma-free cells gives the cells back. |
| `JsText.SplitLength` | backend/src/index.ts:116-119 | A line has one more cell than it has commas, so the header names one disk column per comma. |
| `JsText.IndexOfFrom` | backend/src/controllers/zoiUpload.controller.ts:130 | The search finds the first occurrence of the pattern at or after the start position, or reports that there is none. |
| `JsText.IndexOf` | backend/src/controllers/zoiUpload.controller.ts:130 | The search `replace` makes for its string pattern: `indexOf` from position 0. Its result is stated by `JsText.IndexOfFrom`, and its use by `JsText.RemoveFirstSpec`. |
| `JsText.RemoveFirst` | backend/src/controllers/zoiUpload.controller.ts:130 | `replace` with a string pattern: only the first occurrence is removed. What it returns is stated by `JsText.RemoveFirstSpec`. |
| `JsText.RemoveFirstSpec` | backend/src/controllers/zoiUpload.controller.ts:130 | `val.replace('mm', '')` leaves a cell without "mm" unchanged. Otherwise it removes exactly the first "mm": putting it back at that position restores the cell. |
| `JsText.ToLower` | backend/src/index.ts:33 | The model's ASCII lower-casing keeps the length of the text. |
| `JsText.ToLowerAt` | backend/src/index.ts:33 | Character i of the lower-cased text is character i of the original, lower-cased (ASCII letters). |
| `JsText.ToLowerSpec` | backend/src/index.ts:33 | Every character is lower-cased on its own and stays in place. |
| `PosixPath.StripTrailingSlashes` | backend/src/index.ts:103 | Dropping trailing slashes never lengthens a path. |
| `PosixPath.StripTrailingSlashesSpec` | backend/src/index.ts:103 | basename ignores a run of trailing '/'. The result is an initial part of the path that does not end in '/', and every character after it is '/'. |
| `PosixPath.LastSegment` | backend/src/controllers/zoiUpload.controller.ts:65 | `path.basename(p)` is never longer than p. |
| `PosixPath.LastSegmentSpec` | backend/src/controllers/zoiUpload.controller.ts:65 | `path.basename(p)` has no '/' and is a final part of p once trailing slashes are removed. |
| `PosixPath.LastIndexOf` | backend/src/controllers/zoiUpload.controller.ts:65 | A position found lies inside the text. |
| `PosixPath.LastIndexOfSpec` | backend/src/controllers/zoiUpload.controller.ts:65 | The position found holds the character and no later position does. None means the character does not occur. |
| `PosixPath.AfterLastSlash` | backend/src/controllers/zoiUpload.controller.ts:65 | The part after the last '/' is never longer than the text. |
| `PosixPath.AfterLastSlashSpec` | backend/src/controllers/zoiUpload.controller.ts:65 | The result is the '/'-free tail of the text, and the whole text unless a '/' comes just before the tail. |
| `PosixPath.ComponentExtension` | backend/src/index.ts:97 | The per-component step of `path.extname`: from the last '.', except for a leading dot and "..". What it returns is stated by `PosixPath.ComponentExtensionSpec`. |
| `PosixPath.ComponentExtensionSpec` | backend/src/index.ts:33 | A component's extension is non-empty exactly when the component has a '.' after its first character and is not "..". The extension then starts with the component's last '.', has no other '.', and is a proper final part of the component. |
| `PosixPath.ExtName` | backend/src/index.ts:97 | Node's posix `path.extname`: the extension of the final component once trailing slashes are stripped. Its contract is `PosixPath.ExtNameSpec`, with the special cases in `PosixPath.ComponentExtensionSpec`. |
| `PosixPath.ExtNameSpec` | backend/src/index.ts:33 | `path.extname` is non-empty exactly when the final component has an extension. Then it is a '.'-led, otherwise dot-free, proper final part of that component. |
| `PosixPath.AfterLastSlashOfTail` | backend/src/controllers/zoiUpload.controller.ts:65 | A '/'-free tail after a '/' (or alone) is what remains after the last slash. |
| `PosixPath.LastSegmentOfPlainName` | backend/src/index.ts:103 | A file name without '/' is its own basename. |
| `PosixPath.LastSegmentOfChild` | backend/src/controllers/zoiUpload.controller.ts:65 | The basename of `dir/f` is f, whatever dir is. |
| `PosixPath.LastSegmentIgnoresTrailingSlash` | backend/src/controllers/zoiUpload.controller.ts:65 | `path.basename(p + "/")` is `path.basename(p)`. |
| `PosixPath.LastIndexOfBeforeTail` | backend/src/index.ts:33 | In `s c t` with no c in t, the last c is the one after s. |
| `PosixPath.ExtNameOfPlainName` | backend/src/index.ts:33 | For a name without '/', extname is the extension of the name taken as one component. |
| `PosixPath.ComponentExtensionOfStem` | backend/src/index.ts:33 | The component `stem.t` with no '.' in t has extension `.t`, whatever the stem holds. |
| `PosixPath.ExtNameOfStemAndExtension` | backend/src/index.ts:33 | `path.extname("stem.t")` is `.t` for a '/'-free stem and a '.'-free, '/'-free t. |
| `PosixPath.BaseName` | backend/src/index.ts:103 | Node's posix `path.basename(p, suffix)` in all its branches. An empty or over-long suffix is ignored, and a suffix equal to p gives "". A suffix that is a proper final part of the final component is removed. A final component that is a proper final part of the suffix comes back with the trailing slashes after it. Any other suffix leaves the component whole. For the suffixes the handlers pass, the result is stated by `PosixPath.BaseNameWithExtensionLengthSuffix`. |
| `PosixPath.BaseNameWithExtensionLengthSuffix` | backend/src/index.ts:103 | `path.basename(name, ext)` with a suffix as long as the extension removes the extension exactly when the suffix equals it, and otherwise returns the whole final component. |
| `PosixPath.StripTrailingSlashesLower` | backend/src/index.ts:33 | Lower-casing commutes with dropping trailing slashes. |
| `PosixPath.AfterLastSlashLower` | backend/src/index.ts:33 | Lower-casing commutes with taking the text after the last '/'. |
| `PosixPath.LastIndexOfLower` | backend/src/index.ts:33 | Lower-casing does not move any character that is not a letter. |
| `PosixPath.LastSegmentLower` | backend/src/index.ts:33 | Lower-casing commutes with basename. |
| `PosixPath.DotDotLower` | backend/src/index.ts:33 | A component is ".." exactly when its lower-cased form is. |
| `PosixPath.ComponentExtensionLower` | backend/src/index.ts:33 | Lower-casing commutes with taking a component's extension. |
| `PosixPath.ExtNameLower` | backend/src/index.ts:33 | `extname(name).toLowerCase()` equals `extname(name.toLowerCase())`. |
| `Http.AllowedExtension` | backend/src/index.ts:96-99 | `allowedExtensions.includes(ext)` for the list `.png`, `.jpg`, `.jpeg`. Its use in the guard is stated by `Http.Admit` and `Http.AdmitsAnyCaseOfAllowedExtension`. |
| `Http.LowerExt` | backend/src/index.ts:97 | `path.extname(file.name).toLowerCase()`. That it does not depend on the case of the name is stated by `PosixPath.ExtNameLower` and `Http.AdmitIgnoresCase`. |
| `Http.Admit` | backend/src/index.ts:89-101 | A missing `files.image` gives NoFile and nothing else does. A file is admitted exactly when its lower-cased extname is .png, .jpg or .jpeg, and the guard hands on that name and extension. |
| `Http.AdmittedNameEndsWithExtension` | backend/src/index.ts:97-103 | The lower-cased final component of an admitted name ends with the extension the guard hands on. |
| `Http.Rejection` | backend/src/index.ts:23-36 | A refused upload gets status 400 with "No file uploaded." when no file is present, otherwise with the invalid-type text. |
| `Http.AdmitIgnoresCase` | backend/src/controllers/zoiUpload.controller.ts:18-22 | The guard does not depend on letter case: names that lower-case alike are both admitted or both refused. |
| `Http.AdmitsAnyCaseOfAllowedExtension` | backend/src/controllers/zoiUpload.controller.ts:18-22 | A plain `stem.t` is admitted whenever t lower-cases to png, jpg or jpeg, and the extension handed on is the lower-cased `.t`. |
| `Http.LookupKey` | backend/src/index.ts:97-103 | The CSV key `path.basename(file.name, ext)` with the lower-cased extension. What it returns is stated by `Http.LookupKeyOfAdmitted` and `Http.LookupKeyOfPlainName`. |
| `Http.AllowedExtensionIsPresent` | backend/src/index.ts:97-103 | A name whose lower-cased extension is allowed has a non-empty `path.extname`, so the key is always computed from a real extension. |
| `Http.PlainNameParts` | backend/src/index.ts:97-103 | For a plain `stem.t`, `path.extname` gives `.t` and the final path component is the whole name. |
| `Http.LookupKeyOfAdmitted` | backend/src/controllers/zoiUpload.controller.ts:93-100 | For a name with an extension, the CSV key is the final component without its extension when the extension is already lower-case, and the whole final component otherwise. |
| `Http.KeyOfLowerCaseExtension` | backend/src/controllers/zoiUpload.controller.ts:100 | With a lower-case extension, the key is the final component with the extension removed. |
| `Http.KeyOfMixedCaseExtension` | backend/src/controllers/zoiUpload.controller.ts:100 | With an extension that has an upper-case letter, the key is the whole final component. |
| `Http.LookupKeyOfPlainName` | backend/src/index.ts:97-103 | `plate.jpeg` is looked up as `plate`, but `Plate.PNG` is looked up as `Plate.PNG`. |
| `Http.KeyOfLowerCasePlainName` | backend/src/index.ts:97-103 | A plain `stem.t` with t already lower-case is looked up as stem. |
| `Http.KeyOfMixedCasePlainName` | backend/src/index.ts:97-103 | A plain `stem.t` with an upper-case letter in t is looked up under the whole name. |
| `Http.DotFileRejected` | backend/src/index.ts:96-101 | A dot-file such as `.png` has no extension and gets the invalid-type 400. |
| `Http.RejectsNameWithoutExtension` | backend/src/index.ts:96-101 | A name without an extension is refused with the invalid-type 400. |
| `ZoiCsv.NonBlank` | backend/src/index.ts:111 | The filter never adds lines. |
| `ZoiCsv.DataLines` | backend/src/index.ts:111 | The CSV text split at '\n' with blank lines dropped. Which lines are kept, and in what order, is stated by `ZoiCsv.NonBlankMembers`, `ZoiCsv.NonBlankAppend` and `ZoiCsv.DataLinesAppend`. |
| `ZoiCsv.NonBlankMembers` | backend/src/index.ts:111 | The filter keeps exactly the lines that are not all whitespace, and no kept line is blank. |
| `ZoiCsv.NonBlankAppend` | backend/src/index.ts:111 | Filtering a concatenation filters each part. |
| `ZoiCsv.NonBlankOfBlankLines` | backend/src/index.ts:111 | All-whitespace lines are all dropped. |
| `ZoiCsv.SplitOfBlank` | backend/src/index.ts:111 | Every line of all-whitespace text is all whitespace. |
| `ZoiCsv.FirstCell` | backend/src/index.ts:123-124 | `line.split(',')[0].trim()`, the cell `find` compares with the key. Its use is stated by `ZoiCsv.FindRow`, and a comma-free line is its own first cell by `JsText.SplitWithoutSeparator`. |
| `ZoiCsv.FindRow` | backend/src/index.ts:122-125 | `find` returns the first data row whose trimmed first cell equals the key, or reports that no row matches. |
| `ZoiCsv.FindRowIgnoresLaterRows` | backend/src/index.ts:122-125 | Rows after a match do not change which row is found. |
| `ZoiCsv.NonEmptyColumns` | backend/src/index.ts:131-141 | There are at most as many non-empty columns as disk columns. |
| `ZoiCsv.NonEmptyColumnsFilled` | backend/src/index.ts:135-139 | Every listed column is a disk column whose trimmed cell is non-empty. |
| `ZoiCsv.NonEmptyColumnsIncreasing` | backend/src/index.ts:133-141 | The columns appear in header order. |
| `ZoiCsv.NonEmptyColumnsMembers` | backend/src/index.ts:135-141 | A disk column is kept exactly when its trimmed cell is non-empty. |
| `ZoiCsv.Field` | backend/src/index.ts:135 | `fields[i] || ''`: the cell, or "" past the end of the row. Its effect is stated by `ZoiCsv.MissingCellsHaveNoEntry`. |
| `ZoiCsv.Cell` | backend/src/index.ts:135 | `(fields[idx + 1] || '').trim()`, the trimmed cell of disk column idx. Which columns give entries is stated by `ZoiCsv.NonEmptyColumnsMembers`. |
| `ZoiCsv.DiskValue` | backend/src/controllers/zoiUpload.controller.ts:128-131 | The value of an entry: the trimmed cell in `index.ts` (line 137), and the cell with its first "mm" removed in the controller. The `Number(...)` conversion is left out. The two copies are related by `ZoiCsv.ControllerRemovesFirstMm` and `ZoiCsv.EntriesFollowColumns`. |
| `ZoiCsv.DiskColumnCount` | backend/src/index.ts:116-119 | `headers.slice(1).length`, the number of disk columns. By `JsText.SplitLength` it is the number of commas in the header line. |
| `ZoiCsv.Entries` | backend/src/index.ts:131-141 | There are never more entries than disk columns. |
| `ZoiCsv.EntriesFollowColumns` | backend/src/index.ts:131-141 | Entry k is built from the k-th non-empty disk cell, and there is one entry per such cell. |
| `ZoiCsv.MissingCellsHaveNoEntry` | backend/src/index.ts:135 | A disk column past the end of the row has no entry: a missing field reads as empty. |
| `ZoiCsv.ControllerRemovesFirstMm` | backend/src/controllers/zoiUpload.controller.ts:125-134 | The controller's entries match the index route's one for one, each with its first "mm" removed. |
| `ZoiCsv.LookupLines` | backend/src/index.ts:112-141 | The lookup over the non-blank lines: the empty-CSV check, then `find` over the data rows, then the entries of the match. Its outcomes are stated by `ZoiCsv.LookupSpec` and `ZoiCsv.LookupLinesIgnoresLaterLines`. |
| `ZoiCsv.Lookup` | backend/src/index.ts:105-141 | The lookup of one key in the CSV text, in either copy. Its outcomes are stated by `ZoiCsv.LookupSpec`. The copies are related by `ZoiCsv.LookupVariantsAgree`. |
| `ZoiCsv.LookupSpec` | backend/src/index.ts:111-141 | Fewer than two non-blank lines is "CSV is empty". No data row matching the key is "not found"; the header is never a candidate. Otherwise the entries come from the first matching data row, with at most one entry per comma of the header. |
| `ZoiCsv.LookupLinesIgnoresLaterLines` | backend/src/index.ts:122-125 | Lines added after a matching row leave the result unchanged. |
| `ZoiCsv.DataLinesAppend` | backend/src/index.ts:111 | The non-blank lines of `data\nmore` are those of data followed by those of more. |
| `ZoiCsv.FirstMatchWins` | backend/src/index.ts:122-125 | Once the key is found, any text appended to the CSV leaves the response unchanged. |
| `ZoiCsv.LookupVariantsAgree` | backend/src/controllers/zoiUpload.controller.ts:108-134 | Both copies end the lookup the same way. When a row is found, the controller's entries are the index route's with the first "mm" removed. |
| `ZoiCsv.BlankLinesIgnored` | backend/src/index.ts:111 | Appending whitespace-only lines to the CSV does not change the lookup. |
| `Routes.CheckZoI` | backend/src/index.ts:88-149 | The checkZoI handler: the guard, then reading the CSV, then the lookup under the upload's key. Each response and its exact condition are stated by `Routes.CheckZoISpec`. |
| `Routes.Respond` | backend/src/index.ts:112-147 | The response to a lookup: 500 "CSV is empty.", 404, or 200 with the entries. The statuses of the two copies are related by `Routes.RespondVariantsAgree`. |
| `Routes.CheckZoISpec` | backend/src/index.ts:88-149 | checkZoI answers as follows, each case exactly under its condition: 400 when the guard refuses; 500 "Failed to read CSV." when the file cannot be read; 500 "CSV is empty." when it has fewer than two non-blank lines; 404 "No data found for this image." when no data row's trimmed first cell is the upload's key. Exactly when a data row matches, it answers 200 with "ZoI data fetched.", the upload's name, and the entries of the first matching data row, one per non-empty disk cell. Its only 500 texts are the two CSV ones, and it never sends the Python error. |
| `Routes.RespondVariantsAgree` | backend/src/controllers/zoiUpload.controller.ts:121-140 | For the same lookup, both copies respond with the same status. Their 200 entries differ only by the removed "mm". |
| `Routes.CheckZoIVariantsAgree` | backend/src/controllers/zoiUpload.controller.ts:85-142 | The controller's checkZoIHandler and the index.ts route give every request the same status. When both send 200, the controller's entries are the route's with the first "mm" removed. |
| `Routes.ResultImageUrl` | backend/src/controllers/zoiUpload.controller.ts:63-67 | `imageUrl` is null unless `detection_image` is a non-empty string. Otherwise it is `http://localhost:3005/result/` followed by `path.basename(detection_image)`, a '/'-free file name. |
| `Routes.ResultImageUrlOfChild` | backend/src/controllers/zoiUpload.controller.ts:63-67 | An image written to `dir/file` is served as `http://localhost:3005/result/file`, whatever dir is. |
| `Routes.ResultImageUrlOfPlainName` | backend/src/controllers/zoiUpload.controller.ts:63-67 | An image path that is a bare file name is served under that name. |
| `Routes.ResultImageUrlIgnoresTrailingSlash` | backend/src/controllers/zoiUpload.controller.ts:63-67 | A trailing '/' on a non-empty `detection_image` does not change `imageUrl`. |
| `Routes.ControllerUpload` | backend/src/controllers/zoiUpload.controller.ts:9-83 | Each response comes exactly under its condition, checked in order: the guard's 400; 500 "File saving failed." when the move fails; the JSON 500 with `py_not_found` when no interpreter is found; 500 "Image processing failed." when the script fails; 500 "Failed to parse result." when its output does not parse. Otherwise it sends 200 with the upload's name, the output's `zoi` and its `imageUrl`. It never sends a 404. |
| `Routes.IndexUpload` | backend/src/index.ts:22-85 | The same cascade without an interpreter probe: the guard's 400, then the move, script and parse failures, each exactly under its condition. Otherwise it sends 200 with the upload's name and the whole parsed output. It never sends a 404 or the Python error. |
| `Routes.UploadHandlersAgree` | backend/src/controllers/zoiUpload.controller.ts:30-74 | For outputs shaped as `{ zoi, detection_image }`, and when the controller finds Python, both upload handlers give the same status. On 200 they report the same message and file name. The controller's `zoi` is the `zoi` field of the whole output, which index.ts sends as its `zoi`. |

## Left out

- The detection itself (`backend/src/py/zoi_detect.py`, OpenCV): its run is a `DetectionRun` parameter (failed, unparseable, or parsed). Its parsed output is abstract (`Z` for `zoi`).
- JSON parsing: `JSON.parse(stdout)` becomes the Unparseable or Parsed outcome of that parameter.
- I/O is not modelled; its result is a parameter. This covers `file.mv` (`moved`), `fs.readFile` of the CSV (`csv: Option<string>`) and `checkPythonVersion` from `backend/src/util/checkPy.ts` (`pythonFound`).
- Console logging is dropped. The file-system calls `existsSync`/`mkdirSync` and `unlinkSync` are assumed to succeed (see `Routes.IndexUpload` below).
- Wiring is not modelled: express, CORS, the JSON and fileupload middleware, `app.listen` on port 3005, and the env/default Python path in `index.ts`. In `index.ts` a missing interpreter shows up as a failed script run.
- `path.join` and the storage locations (`storage`, `RESULT_DIR`, `assets/zoi_data.csv`) are not modelled. Once defined, they only decide where files go.
- The frontend (`frontend/src/...`) is not part of this model.
- `PosixPath.LastSegment`: the server is assumed to run on a POSIX host, where Node's default `path` is `path.posix` and only '/' separates components. On Windows `path` is `path.win32`, where '\\' also separates components and a drive prefix such as `C:` is skipped. There the controller's `path.basename("C:\\res\\out.png")` is `out.png`, whereas the model's basename, and so `Routes.ResultImageUrl`, keeps the whole string.
- `PosixPath.ExtName`: the extension as `path.posix.extname` finds it. On a Windows host '\\' and drive prefixes also end the final component, which the model does not do.
- `PosixPath.BaseName`: the posix `basename(p, suffix)`. On a Windows host the key `path.basename("a\\plate.png", ".png")` is `plate`, whereas the model gives the string `a\plate`.
- `JsText.ToLower`: lower-cases ASCII letters only, because JavaScript applies full Unicode case mapping. For the allowed-extension test this is the same: the only non-ASCII character that lower-cases to an ASCII letter is KELVIN SIGN, which becomes 'k', and no allowed extension contains 'k'. JavaScript's full mapping can also change the length (`"\u0130".toLowerCase()` has two code units), which the model's lower-casing never does.
- Characters are Unicode scalar values, whereas JavaScript strings are UTF-16 code units. Surrogate pairs are not modelled.
- `ZoiCsv.ControllerRemovesFirstMm`: the controller's entries are stated as text after the first "mm" is removed. The `Number(...)` conversion that follows is not modelled, because it needs JavaScript number parsing and floating point.
- `Routes.CheckZoIVariantsAgree`: relates the entries through the text before `Number(...)` for the same reason.
- `Routes.ResultImageUrl`: `detection_image` is modelled as an optional string. Other JSON values that JavaScript treats as true (numbers, objects) are not modelled.
- `Routes.ControllerUpload`: the parsed output is modelled as a record with `zoi` and `detection_image`. `zoi_detect.py` prints a bare JSON list, for which `data.zoi` is `undefined` and `imageUrl` is null. That case is the Parsed outcome with an absent image, and `zoi` stays abstract.
- `Routes.ControllerUpload`: assumes `RESULT_DIR` is a defined directory path. As written it is `undefined`, since `index.ts` exports nothing by that name. `path.join` then throws before `file.mv`, and express answers 500 to every admitted upload, so none of the modelled outcomes after the guard is reached.
- `Routes.IndexUpload`: assumes the file-system calls succeed. This applies to the controller too. A failing `mkdirSync` makes express answer 500 before the move. `unlinkSync` runs before the script's error is checked, so if the moved file is gone it throws inside the `execFile` callback. Nothing catches it there, so Node ends the whole server process. Two concurrent uploads with the same `file.name` can cause this, since they share the upload path and the second callback's unlink fails.
- `Routes.UploadHandlersAgree`: holds only for outputs modelled as a record with `zoi` and an optional string `detection_image`. For the bare list `zoi_detect.py` prints, index.ts sends the list as `zoi` but the controller's `zoi` is `undefined`. For stdout `null`, or a `detection_image` that is true but not a string, the controller throws inside its `try` and answers 500 "Failed to parse result.", whereas index.ts answers 200. These outputs are not represented.
- `Http.Admit`: `req.files.image` is modelled as at most one file. When several files are posted under `image` it is an array, `file.name` is `undefined`, and `path.extname` throws, so express answers 500 instead of the guard's 400 or admission. That case is not represented.

=== FILE: http.dfy ===
/** What the two route files share: the response a handler sends, the
    uploaded file, and the guard every handler runs first on `files.image`
    (present, and named with an allowed image extension). */
module Http {

  import opened Optional
  import opened JsText
  import opened PosixPath

  /** The one field of the express-fileupload record the handlers read. */
  datatype UploadedFile = UploadedFile(name: string)

  /** A response: a plain-text 400 or 500, the JSON 500 sent when no Python
      interpreter is found, the JSON 404 of a missing CSV row, or a JSON 200
      carrying a body. */
  datatype Outcome<+B> =
    | BadRequest(text: string)
    | ServerError(text: string)
    | PythonMissing(error: string, code: string)
    | NotFound(message: string)
    | Ok(body: B)
  {
    function Status(): nat {
      match this
      case BadRequest(_) => 400
      case ServerError(_) => 500
      case PythonMissing(_, _) => 500
      case NotFound(_) => 404
      case Ok(_) => 200
    }
  }

  const NoFileText: string := "No file uploaded."
  const BadTypeText: string := "Invalid file type. Only PNG/JPG allowed."
  /** The JSON `message` of the 404 response. */
  const NotFoundMessage: string := "No data found for this image."
  /** The JSON `error` and `code` of the controller's 500 when no Python
      interpreter is found. */
  const PythonMissingError: string := "Python executable not found. Set PYTHON_PATH or install Python."
  const PythonMissingCode: string := "py_not_found"

  /** The extensions an upload may carry, compared after lower-casing. */
  predicate AllowedExtension(ext: string) {
    ext == ".png" || ext == ".jpg" || ext == ".jpeg"
  }

  /** The result of the guard shared by all handlers. */
  datatype Admission = NoFile | BadType | Admitted(name: string, ext: string)

  /** The lower-cased extension of the file name, as the handlers compute it. */
  function LowerExt(name: string): string {
    ToLower(ExtName(name))
  }

  /** Every handler first rejects a request without `files.image`, then one
      whose file name's lower-cased extension is not allowed. */
  function Admit(image: Option<UploadedFile>): (r: Admission)
    ensures r.NoFile? <==> image.None?
    ensures r.Admitted? <==> image.Some? && AllowedExtension(LowerExt(image.value.name))
    ensures r.Admitted? ==> r.name == image.value.name && r.ext == LowerExt(r.name) && AllowedExtension(r.ext)
  {
    match image
    case None => NoFile
    case Some(file) =>
      var ext := LowerExt(file.name);
      if AllowedExtension(ext) then Admitted(file.name, ext) else BadType
  }

  /** An admitted name's final component, lower-cased, ends with the
      extension the guard hands on. */
  lemma {:induction false} AdmittedNameEndsWithExtension(image: Option<UploadedFile>)
    requires Admit(image).Admitted?
    ensures EndsWith(ToLower(LastSegment(image.value.name)), Admit(image).ext)
  {
    var name := image.value.name;
    ExtNameSpec(name);
    LowerEndsWith(LastSegment(name), ExtName(name));
  }

  /** Lower-casing keeps a final part a final part. */
  lemma {:induction false} LowerEndsWith(s: string, suffix: string)
    requires EndsWith(s, suffix)
    ensures EndsWith(ToLower(s), ToLower(suffix))
  {
    var k := |s| - |suffix|;
    ToLowerSlice(s, k, |s|);
    assert s[k..|s|] == suffix;
    assert ToLower(s)[k..|s|] == ToLower(s)[k..];
  }

  /** The guard's 400 response for a request it does not admit. */
  function Rejection<B>(a: Admission): (r: Outcome<B>)
    requires !a.Admitted?
    ensures r.BadRequest? && r.Status() == 400
    ensures r.text == NoFileText <==> a.NoFile?
    ensures r.text == BadTypeText <==> a.BadType?
  {
    if a.NoFile? then BadRequest(NoFileText) else BadRequest(BadTypeText)
  }

  /** Admission does not depend on the letter case of the name: two names
      that lower-case alike are both admitted or both rejected. */
  lemma {:induction false} AdmitIgnoresCase(n1: string, n2: string)
    requires ToLower(n1) == ToLower(n2)
    ensures Admit(Some(UploadedFile(n1))).Admitted? == Admit(Some(UploadedFile(n2))).Admitted?
  {
    ExtNameLower(n1);
    ExtNameLower(n2);
  }

  /** Lower-casing leaves '.' and '/' where they are. */
  lemma {:induction false} LowerKeepsSeparators(t: string)
    ensures ('.' in t <==> '.' in ToLower(t)) && ('/' in t <==> '/' in ToLower(t))
  {
    ToLowerSpec(t);
    if '.' in t { var i :| 0 <= i < |t| && t[i] == '.'; assert ToLower(t)[i] == '.'; }
    if '/' in t { var i :| 0 <= i < |t| && t[i] == '/'; assert ToLower(t)[i] == '/'; }
  }

  /** The extension names the guard lets through, without their dot. */
  lemma {:induction false} DottedAllowed(u: string)
    requires u == "png" || u == "jpg" || u == "jpeg"
    ensures AllowedExtension("." + u)
  {
    if u == "png" {
      assert "." + u == ".png";
    } else if u == "jpg" {
      assert "." + u == ".jpg";
    } else {
      assert "." + u == ".jpeg";
    }
  }

  /** A plain file name `stem.t` is admitted whenever t lower-cases to png,
      jpg or jpeg, in any mix of cases, and the guard hands on the
      lower-cased extension. */
  lemma {:induction false} AdmitsAnyCaseOfAllowedExtension(stem: string, t: string)
    requires stem != "" && '/' !in stem
    requires ToLower(t) == "png" || ToLower(t) == "jpg" || ToLower(t) == "jpeg"
    ensures Admit(Some(UploadedFile(stem + "." + t))) == Admitted(stem + "." + t, "." + ToLower(t))
  {
    var name := stem + "." + t;
    LowerKeepsSeparators(t);
    assert '.' !in ToLower(t) && '/' !in ToLower(t);
    ExtNameOfStemAndExtension(stem, t);
    assert LowerExt(name) == "." + ToLower(t) by {
      assert ToLower("." + t) == "." + ToLower(t);
    }
    DottedAllowed(ToLower(t));
  }

  /** The CSV key of an upload: `path.basename(file.name, ext)` with the
      lower-cased extension. */
  function LookupKey(name: string): string {
    BaseName(name, LowerExt(name))
  }

  /** An allowed lower-cased extension comes from a non-empty extension. */
  lemma {:induction false} AllowedExtensionIsPresent(name: string)
    requires AllowedExtension(LowerExt(name))
    ensures ExtName(name) != ""
  {
  }

  /** For a name with an extension (every admitted name has one) the key is the final component with its
      extension removed only when the extension is already lower-case;
      `Plate.PNG` keeps its extension in the key. */
  lemma {:induction false} LookupKeyOfAdmitted(name: string)
    requires ExtName(name) != ""
    ensures ExtName(name) == ToLower(ExtName(name)) ==>
              LookupKey(name) == LastSegment(name)[..|LastSegment(name)| - |ExtName(name)|]
    ensures ExtName(name) != ToLower(ExtName(name)) ==> LookupKey(name) == LastSegment(name)
  {
    if ExtName(name) == ToLower(ExtName(name)) {
      KeyOfLowerCaseExtension(name);
    } else {
      KeyOfMixedCaseExtension(name);
    }
  }

  /** When the extension is already lower-case, the key is the final component without it. */
  lemma {:induction false} KeyOfLowerCaseExtension(name: string)
    requires ExtName(name) != "" && ExtName(name) == ToLower(ExtName(name))
    ensures LookupKey(name) == LastSegment(name)[..|LastSegment(name)| - |ExtName(name)|]
  {
    var x := LowerExt(name);
    assert x == ExtName(name);
    BaseNameWithExtensionLengthSuffix(name, x);
  }

  /** When lower-casing changes the extension, the key is the whole final component. */
  lemma {:induction false} KeyOfMixedCaseExtension(name: string)
    requires ExtName(name) != "" && ExtName(name) != ToLower(ExtName(name))
    ensures LookupKey(name) == LastSegment(name)
  {
    var x := LowerExt(name);
    assert x != ExtName(name) && |x| == |ExtName(name)|;
    BaseNameWithExtensionLengthSuffix(name, x);
  }

  /** Lower-casing `.t` lower-cases t, and leaves `.t` alone exactly when it
      leaves t alone. */
  lemma {:induction false} LowerDotted(t: string)
    ensures ToLower("." + t) == "." + ToLower(t)
    ensures ("." + t == ToLower("." + t)) <==> ToLower(t) == t
  {
    var e := "." + t;
    assert ToLower(e) == "." + ToLower(t);
    if e == ToLower(e) {
      assert t == e[1..] == ToLower(e)[1..];
    }
  }

  /** A plain name `stem.t` is its own final component, with extension `.t`. */
  lemma {:induction false} PlainNameParts(stem: string, t: string)
    requires stem != "" && '/' !in stem
    requires t != "" && '.' !in t && '/' !in t
    ensures ExtName(stem + "." + t) == "." + t
    ensures LastSegment(stem + "." + t) == stem + "." + t
  {
    var name := stem + "." + t;
    ExtNameOfStemAndExtension(stem, t);
    assert '/' !in name;
    LastSegmentOfPlainName(name);
  }

  /** For a plain name `stem.t` the key is the stem when t is already
      lower-case, and the whole name otherwise: `plate.jpeg` is looked up as
      `plate`, `Plate.PNG` as `Plate.PNG`. */
  lemma {:induction false} LookupKeyOfPlainName(stem: string, t: string)
    requires stem != "" && '/' !in stem
    requires t != "" && '.' !in t && '/' !in t
    ensures ToLower(t) == t ==> LookupKey(stem + "." + t) == stem
    ensures ToLower(t) != t ==> LookupKey(stem + "." + t) == stem + "." + t
  {
    if ToLower(t) == t {
      KeyOfLowerCasePlainName(stem, t);
    } else {
      KeyOfMixedCasePlainName(stem, t);
    }
  }

  /** For `stem.t` with a lower-case t, the key is the stem. */
  lemma {:induction false} KeyOfLowerCasePlainName(stem: string, t: string)
    requires stem != "" && '/' !in stem
    requires t != "" && '.' !in t && '/' !in t && ToLower(t) == t
    ensures LookupKey(stem + "." + t) == stem
  {
    var name := stem + "." + t;
    assert LookupKey(name) == name[..|name| - |t| - 1] by {
      PlainNameParts(stem, t);
      LowerDotted(t);
      KeyOfLowerCaseExtension(name);
    }
    assert name[..|name| - |t| - 1] == stem;
  }

  /** For `stem.t` where lower-casing changes t, the key is the whole name. */
  lemma {:induction false} KeyOfMixedCasePlainName(stem: string, t: string)
    requires stem != "" && '/' !in stem
    requires t != "" && '.' !in t && '/' !in t && ToLower(t) != t
    ensures LookupKey(stem + "." + t) == stem + "." + t
  {
    var name := stem + "." + t;
    PlainNameParts(stem, t);
    LowerDotted(t);
    KeyOfMixedCaseExtension(name);
  }

  /** A dot-file such as ".png" has no extension and is refused, whatever
      follows its dot. */
  lemma {:induction false} DotFileRejected(t: string)
    requires '.' !in t && '/' !in t
    ensures Admit(Some(UploadedFile("." + t))) == BadType
  {
    var name := "." + t;
    assert ExtName(name) == "" by {
      assert '/' !in name;
      LastSegmentOfPlainName(name);
      assert name == "" + ['.'] + t;
      LastIndexOfBeforeTail("", '.', t);
    }
    RejectsNameWithoutExtension(name);
  }

  /** A name without an extension is refused. */
  lemma {:induction false} RejectsNameWithoutExtension(name: string)
    requires ExtName(name) == ""
    ensures Admit(Some(UploadedFile(name))) == BadType
  {
    assert LowerExt(name) == "";
  }
}

=== FILE: js_text.dfy ===
/** The JavaScript string operations the handlers rely on, over strings as
    sequences of characters: String.prototype.trim, split with a one-character
    separator, replace with a string pattern and an empty replacement, and
    toLowerCase restricted to ASCII letters. */
module JsText {

  import opened Optional

  /** The characters trim removes: ECMAScript WhiteSpace (TAB, VT, FF, SPACE,
      NO-BREAK SPACE, ZERO WIDTH NO-BREAK SPACE and the Zs category) and
      LineTerminator (LF, CR, LINE SEPARATOR, PARAGRAPH SEPARATOR). */
  predicate IsSpace(c: char) {
    || c == '\t' || c == '\n' || c == '\U{000B}' || c == '\U{000C}' || c == '\r'
    || c == ' ' || c == '\U{00A0}' || c == '\U{1680}'
    || ('\U{2000}' <= c <= '\U{200A}')
    || c == '\U{2028}' || c == '\U{2029}' || c == '\U{202F}' || c == '\U{205F}'
    || c == '\U{3000}' || c == '\U{FEFF}'
  }

  /** Every character is whitespace (vacuously true of the empty string). */
  predicate Blank(s: string) {
    forall i :: 0 <= i < |s| ==> IsSpace(s[i])
  }

  /** s with its leading whitespace removed. */
  function TrimStart(s: string): (r: string)
    ensures |r| <= |s|
  {
    if |s| == 0 || !IsSpace(s[0]) then s else TrimStart(s[1..])
  }

  /** s with its trailing whitespace removed. */
  function TrimEnd(s: string): (r: string)
    ensures |r| <= |s|
  {
    if |s| == 0 || !IsSpace(s[|s| - 1]) then s else TrimEnd(s[..|s| - 1])
  }

  /** String.prototype.trim. */
  function Trim(s: string): string {
    TrimEnd(TrimStart(s))
  }

  /** TrimStart drops a whitespace prefix and stops at the first other
      character. */
  lemma {:induction false} TrimStartSpec(s: string)
    ensures var r := TrimStart(s); r == s[|s| - |r|..] && Blank(s[..|s| - |r|])
    ensures var r := TrimStart(s); r == "" || !IsSpace(r[0])
  {
    if |s| > 0 && IsSpace(s[0]) {
      var r := TrimStart(s[1..]);
      TrimStartSpec(s[1..]);
      assert s[..|s| - |r|] == [s[0]] + s[1..][..|s| - 1 - |r|];
    }
  }

  /** TrimEnd drops a whitespace suffix and stops at the last other
      character. */
  lemma {:induction false} TrimEndSpec(s: string)
    ensures var r := TrimEnd(s); r == s[..|r|] && Blank(s[|r|..])
    ensures var r := TrimEnd(s); r == "" || !IsSpace(r[|r| - 1])
  {
    if |s| > 0 && IsSpace(s[|s| - 1]) {
      var r := TrimEnd(s[..|s| - 1]);
      TrimEndSpec(s[..|s| - 1]);
      assert s[|r|..] == s[..|s| - 1][|r|..] + [s[|s| - 1]];
    }
  }

  /** Trim keeps the infix of s that neither starts nor ends with
      whitespace, everything around it being whitespace. */
  lemma {:induction false} TrimSpec(s: string)
    ensures var r := Trim(s);
              exists i :: 0 <= i <= |s| - |r| && r == s[i..i + |r|] && Blank(s[..i]) && Blank(s[i + |r|..])
    ensures var r := Trim(s); r == "" || (!IsSpace(r[0]) && !IsSpace(r[|r| - 1]))
  {
    var t := TrimStart(s);
    var r := TrimEnd(t);
    TrimStartSpec(s);
    TrimEndSpec(t);
    var i := |s| - |t|;
    assert r == s[i..i + |r|];
    assert s[i + |r|..] == t[|r|..];
  }

  /** A string trims to nothing exactly when it is all whitespace: the test
      `line.trim().length > 0` keeps precisely the lines that are not blank. */
  lemma {:induction false} TrimEmptyIffBlank(s: string)
    ensures Trim(s) == "" <==> Blank(s)
  {
    TrimSpec(s);
    var r := Trim(s);
    var i :| 0 <= i <= |s| - |r| && r == s[i..i + |r|] && Blank(s[..i]) && Blank(s[i + |r|..]);
    if r == "" {
      forall k | 0 <= k < |s| ensures IsSpace(s[k]) {
        if k < i { assert s[k] == s[..i][k]; } else { assert s[k] == s[i..][k - i]; }
      }
    } else {
      assert r[0] == s[i];
    }
  }

  /** String.prototype.split with a one-character separator: the pieces
      between separators, in order; the empty string splits into [""]. */
  function Split(s: string, sep: char): (r: seq<string>)
    ensures |r| >= 1
    ensures forall k :: 0 <= k < |r| ==> sep !in r[k]
  {
    if |s| == 0 then [""]
    else
      var rest := Split(s[1..], sep);
      if s[0] == sep then [""] + rest
      else [[s[0]] + rest[0]] + rest[1..]
  }

  /** Array.prototype.join with a one-character separator. */
  function Join(parts: seq<string>, sep: char): string
    requires |parts| >= 1
  {
    if |parts| == 1 then parts[0] else parts[0] + [sep] + Join(parts[1..], sep)
  }

  /** Joining the pieces of a split gives back the original string. */
  lemma {:induction false} JoinSplit(s: string, sep: char)
    ensures Join(Split(s, sep), sep) == s
  {
    if |s| > 0 {
      var rest := Split(s[1..], sep);
      JoinSplit(s[1..], sep);
      if s[0] == sep {
        assert Split(s, sep)[1..] == rest;
      } else if |rest| > 1 {
        assert Join(rest, sep) == rest[0] + [sep] + Join(rest[1..], sep);
        assert Split(s, sep)[1..] == rest[1..];
      }
    }
  }

  /** A string without the separator splits into itself. */
  lemma {:induction false} SplitWithoutSeparator(s: string, sep: char)
    requires sep !in s
    ensures Split(s, sep) == [s]
  {
    if |s| > 0 {
      SplitWithoutSeparator(s[1..], sep);
      assert [s[0]] + s[1..] == s;
    }
  }

  /** Splitting distributes over a separator: the pieces of `a sep b` are
      the pieces of a followed by the pieces of b. */
  lemma {:induction false} SplitAppend(a: string, b: string, sep: char)
    ensures Split(a + [sep] + b, sep) == Split(a, sep) + Split(b, sep)
  {
    var s := a + [sep] + b;
    if |a| == 0 {
      assert s[1..] == b;
    } else {
      assert s[1..] == a[1..] + [sep] + b;
      SplitAppend(a[1..], b, sep);
    }
  }

  /** Splitting a join of separator-free pieces gives the pieces back. */
  lemma {:induction false} SplitJoin(parts: seq<string>, sep: char)
    requires |parts| >= 1
    requires forall k :: 0 <= k < |parts| ==> sep !in parts[k]
    ensures Split(Join(parts, sep), sep) == parts
  {
    SplitWithoutSeparator(parts[0], sep);
    if |parts| > 1 {
      SplitJoin(parts[1..], sep);
      SplitAppend(parts[0], Join(parts[1..], sep), sep);
    }
  }

  /** Number of occurrences of c in s. */
  function Count(s: string, c: char): nat {
    if |s| == 0 then 0 else (if s[0] == c then 1 else 0) + Count(s[1..], c)
  }

  /** A split has one more piece than the string has separators. */
  lemma {:induction false} SplitLength(s: string, sep: char)
    ensures |Split(s, sep)| == Count(s, sep) + 1
  {
    if |s| > 0 {
      SplitLength(s[1..], sep);
    }
  }

  /** pat occurs in s at position i. */
  predicate OccursAt(s: string, pat: string, i: nat) {
    i + |pat| <= |s| && s[i..i + |pat|] == pat
  }

  /** The first position at or after `from` where pat occurs in s. */
  function IndexOfFrom(s: string, pat: string, from: nat): (r: Option<nat>)
    ensures r.Some? ==> from <= r.value && OccursAt(s, pat, r.value)
    ensures r.Some? ==> forall j: nat :: from <= j < r.value ==> !OccursAt(s, pat, j)
    ensures r.None? ==> forall j: nat :: from <= j ==> !OccursAt(s, pat, j)
    decreases |s| + 1 - from
  {
    if from + |pat| > |s| then None
    else if s[from..from + |pat|] == pat then Some(from)
    else IndexOfFrom(s, pat, from + 1)
  }

  /** String.prototype.indexOf: the first position where pat occurs in s. */
  function IndexOf(s: string, pat: string): Option<nat> {
    IndexOfFrom(s, pat, 0)
  }

  /** `s.replace(pat, '')` with a string pattern: only the first occurrence of
      pat is removed. */
  function RemoveFirst(s: string, pat: string): string {
    match IndexOf(s, pat)
    case None => s
    case Some(i) => s[..i] + s[i + |pat|..]
  }

  /** Without an occurrence s is unchanged; otherwise the result is |pat|
      shorter, and putting pat back where its first occurrence was gives s. */
  lemma {:induction false} RemoveFirstSpec(s: string, pat: string)
    ensures IndexOf(s, pat).None? ==> RemoveFirst(s, pat) == s
    ensures IndexOf(s, pat).Some? ==>
              var i := IndexOf(s, pat).value; var r := RemoveFirst(s, pat);
              |r| == |s| - |pat| && i <= |r| && s == r[..i] + pat + r[i..]
  {
    match IndexOf(s, pat)
    case None =>
    case Some(i) =>
      var r := RemoveFirst(s, pat);
      assert r[..i] == s[..i] && r[i..] == s[i + |pat|..];
      assert s == s[..i] + s[i..i + |pat|] + s[i + |pat|..];
  }

  /** toLowerCase on one character, for the ASCII letters. */
  function LowerChar(c: char): char {
    if 'A' <= c <= 'Z' then (c as int + 32) as char else c
  }

  /** toLowerCase over ASCII letters; every other character is kept. */
  function ToLower(s: string): (r: string)
    ensures |r| == |s|
  {
    if |s| == 0 then "" else [LowerChar(s[0])] + ToLower(s[1..])
  }

  /** Character i of the result is character i of s, lower-cased. */
  lemma {:induction false} ToLowerAt(s: string, i: nat)
    requires i < |s|
    ensures ToLower(s)[i] == LowerChar(s[i])
  {
    if i > 0 {
      ToLowerAt(s[1..], i - 1);
    }
  }

  /** Each character is lower-cased on its own, in place. */
  lemma {:induction false} ToLowerSpec(s: string)
    ensures forall i :: 0 <= i < |s| ==> ToLower(s)[i] == LowerChar(s[i])
  {
    forall i | 0 <= i < |s| ensures ToLower(s)[i] == LowerChar(s[i]) {
      ToLowerAt(s, i);
    }
  }
}

=== FILE: optional.dfy ===
/** The Some/None datatype used wherever the handlers may be missing a value:
    an absent upload, a failed file read, a row that was not found. */
module Optional {

  datatype Option<+T> = None | Some(value: T)
}

=== FILE: posix_path.dfy ===
/** The parts of Node's posix `path` module the handlers call: `extname`,
    and `basename` with and without a suffix argument. Paths are strings
    whose separator is '/'. */
module PosixPath {

  import opened Optional
  import opened JsText

  /** p without its run of trailing '/' characters. */
  function StripTrailingSlashes(p: string): (r: string)
    ensures |r| <= |p|
  {
    if |p| > 0 && p[|p| - 1] == '/' then StripTrailingSlashes(p[..|p| - 1]) else p
  }

  /** What is stripped is exactly the final run of '/': the result is an
      initial part of p that does not end in '/', and every later character
      of p is a '/'. */
  lemma {:induction false} StripTrailingSlashesSpec(p: string)
    ensures |StripTrailingSlashes(p)| <= |p| && StripTrailingSlashes(p) == p[..|StripTrailingSlashes(p)|]
    ensures forall i :: |StripTrailingSlashes(p)| <= i < |p| ==> p[i] == '/'
    ensures StripTrailingSlashes(p) == "" || StripTrailingSlashes(p)[|StripTrailingSlashes(p)| - 1] != '/'
  {
    if |p| > 0 && p[|p| - 1] == '/' {
      StripTrailingSlashesSpec(p[..|p| - 1]);
    }
  }

  /** The final component, trailing slashes ignored: `path.basename(p)`. */
  function LastSegment(p: string): (r: string)
    ensures |r| <= |p|
  {
    AfterLastSlash(StripTrailingSlashes(p))
  }

  /** basename has no '/' and is a final part of p once its trailing
      slashes are dropped. */
  lemma {:induction false} LastSegmentSpec(p: string)
    ensures '/' !in LastSegment(p)
    ensures |LastSegment(p)| <= |StripTrailingSlashes(p)| <= |p|
    ensures LastSegment(p) == StripTrailingSlashes(p)[|StripTrailingSlashes(p)| - |LastSegment(p)|..]
  {
    StripTrailingSlashesSpec(p);
    AfterLastSlashSpec(StripTrailingSlashes(p));
  }

  /** The last position of c in s. */
  function LastIndexOf(s: string, c: char): (r: Option<nat>)
    ensures r.Some? ==> r.value < |s|
  {
    if |s| == 0 then None
    else if s[|s| - 1] == c then Some(|s| - 1)
    else LastIndexOf(s[..|s| - 1], c)
  }

  /** The position found holds c and no later one does; None means c does
      not occur in s. */
  lemma {:induction false} LastIndexOfSpec(s: string, c: char)
    ensures LastIndexOf(s, c).Some? ==>
              && LastIndexOf(s, c).value < |s| && s[LastIndexOf(s, c).value] == c
              && c !in s[LastIndexOf(s, c).value + 1..]
    ensures LastIndexOf(s, c).None? ==> c !in s
  {
    if |s| > 0 && s[|s| - 1] != c {
      var t := s[..|s| - 1];
      LastIndexOfSpec(t, c);
      match LastIndexOf(t, c)
      case Some(k) =>
        assert s[k + 1..] == t[k + 1..] + [s[|s| - 1]];
      case None =>
        assert s == t + [s[|s| - 1]];
    }
  }

  /** The part of q after its last '/' (all of q when it has none). */
  function AfterLastSlash(q: string): (r: string)
    ensures |r| <= |q|
  {
    match LastIndexOf(q, '/')
    case None => q
    case Some(i) => q[i + 1..]
  }

  /** AfterLastSlash keeps a '/'-free final part of q: all of q, or what
      follows a '/'. */
  lemma {:induction false} AfterLastSlashSpec(q: string)
    ensures var r := AfterLastSlash(q); |r| <= |q| && r == q[|q| - |r|..]
    ensures '/' !in AfterLastSlash(q)
    ensures var r := AfterLastSlash(q); |r| < |q| ==> q[|q| - |r| - 1] == '/'
  {
    LastIndexOfSpec(q, '/');
  }

  /** A path component has an extension when it holds a '.' after its
      first character and is not "..". */
  predicate HasExtension(seg: string) {
    seg != ".." && exists k :: 1 <= k < |seg| && seg[k] == '.'
  }

  /** The extension of one path component: from its last '.', or "" when
      the component has none. */
  function ComponentExtension(seg: string): string {
    match LastIndexOf(seg, '.')
    case None => ""
    case Some(d) => if d == 0 || seg == ".." then "" else seg[d..]
  }

  /** A component's extension is non-empty exactly when it has one; it is
      then a final part of the component, shorter than it, starting with its
      only '.'. */
  lemma {:induction false} ComponentExtensionSpec(seg: string)
    ensures ComponentExtension(seg) != "" <==> HasExtension(seg)
    ensures ComponentExtension(seg) != "" ==>
              var r := ComponentExtension(seg);
              r[0] == '.' && '.' !in r[1..] && |r| < |seg| && r == seg[|seg| - |r|..]
  {
    LastIndexOfSpec(seg, '.');
    match LastIndexOf(seg, '.')
    case None =>
    case Some(d) =>
      if d == 0 {
        forall k | 1 <= k < |seg| ensures seg[k] != '.' { assert seg[k] == seg[d + 1..][k - 1]; }
      } else if seg != ".." {
        assert seg[d..][1..] == seg[d + 1..];
      }
  }

  /** `path.extname(p)`: the extension of the final component, so a
      dot-file such as ".png" has none. */
  function ExtName(p: string): string {
    ComponentExtension(LastSegment(p))
  }

  /** extname is non-empty exactly when the final component has an
      extension, and is then a '.'-led, otherwise dot-free, proper final part
      of that component. */
  lemma {:induction false} ExtNameSpec(p: string)
    ensures ExtName(p) != "" <==> HasExtension(LastSegment(p))
    ensures ExtName(p) != "" ==>
              var r := ExtName(p);
              r[0] == '.' && '.' !in r[1..] && |r| < |LastSegment(p)| && EndsWith(LastSegment(p), r)
  {
    ComponentExtensionSpec(LastSegment(p));
  }

  /** suffix is a final part of s. */
  predicate EndsWith(s: string, suffix: string) {
    |suffix| <= |s| && s[|s| - |suffix|..] == suffix
  }

  /** `path.basename(p, suffix)` of Node's posix implementation. The suffix
      is compared against the final component only, from its end. It is
      removed when it is a proper final part of that component. When the
      component is itself a proper final part of the suffix, Node returns the
      component together with the trailing slashes that follow it. An empty
      suffix, or one longer than p, is ignored, and a suffix equal to the
      whole of p gives "". */
  function BaseName(p: string, suffix: string): (r: string)
  {
    var seg := LastSegment(p);
    if |suffix| == 0 || |suffix| > |p| then seg
    else if suffix == p then ""
    else if EndsWith(seg, suffix) && |suffix| < |seg| then seg[..|seg| - |suffix|]
    else if EndsWith(suffix, seg) && |seg| < |suffix| then p[|StripTrailingSlashes(p)| - |seg|..]
    else seg
  }

  /** Appending a '/' to a path leaves its final component unchanged. */
  lemma {:induction false} LastSegmentIgnoresTrailingSlash(p: string)
    ensures LastSegment(p + "/") == LastSegment(p)
  {
    assert (p + "/")[..|p + "/"| - 1] == p;
  }

  /** A '/'-free tail of q is kept whole by AfterLastSlash. */
  lemma {:induction false} AfterLastSlashOfTail(q: string, f: string)
    requires '/' !in f
    requires q == "" || q[|q| - 1] == '/'
    ensures AfterLastSlash(q + f) == f
  {
    if q == "" {
      assert q + f == f;
      LastIndexOfSpec(f, '/');
    } else {
      var d := q[..|q| - 1];
      assert q + f == d + ['/'] + f;
      LastIndexOfBeforeTail(d, '/', f);
      assert (q + f)[|d| + 1..] == f;
    }
  }

  /** The final component of a path that has no '/' at all is the whole path. */
  lemma {:induction false} LastSegmentOfPlainName(f: string)
    requires '/' !in f
    ensures LastSegment(f) == f
  {
    assert f == "" || f[|f| - 1] != '/';
    AfterLastSlashOfTail("", f);
    assert "" + f == f;
  }

  /** The final component of `dir/f` is f, for a non-empty f without '/'. */
  lemma {:induction false} LastSegmentOfChild(dir: string, f: string)
    requires f != "" && '/' !in f
    ensures LastSegment(dir + "/" + f) == f
  {
    var p := dir + "/" + f;
    assert p[|p| - 1] == f[|f| - 1];
    assert StripTrailingSlashes(p) == p;
    AfterLastSlashOfTail(dir + "/", f);
  }

  /** The last c of `s c t` is the one between s and t when t has none. */
  lemma {:induction false} LastIndexOfBeforeTail(s: string, c: char, t: string)
    requires c !in t
    ensures LastIndexOf(s + [c] + t, c) == Some(|s|)
  {
    if |t| > 0 {
      assert (s + [c] + t)[..|s| + |t|] == s + [c] + t[..|t| - 1];
      LastIndexOfBeforeTail(s, c, t[..|t| - 1]);
    }
  }

  /** The extension of a path without '/' is that of the path as one component. */
  lemma {:induction false} ExtNameOfPlainName(p: string)
    requires '/' !in p
    ensures ExtName(p) == ComponentExtension(p)
  {
    LastSegmentOfPlainName(p);
  }

  /** A component `stem.t` with a non-empty stem and a dot-free t has the extension `.t`. */
  lemma {:induction false} ComponentExtensionOfStem(stem: string, t: string)
    requires stem != "" && t != "" && '.' !in t
    ensures ComponentExtension(stem + "." + t) == "." + t
  {
    var p := stem + "." + t;
    assert p == stem + ['.'] + t;
    LastIndexOfBeforeTail(stem, '.', t);
    assert p[|stem|..] == "." + t;
    assert |p| > 2;
  }

  /** A file name made of a non-empty stem and `.t`, with no '/' anywhere and
      no '.' in t, has extension `.t`, whatever the stem holds. */
  lemma {:induction false} ExtNameOfStemAndExtension(stem: string, t: string)
    requires stem != "" && '/' !in stem
    requires t != "" && '.' !in t && '/' !in t
    ensures ExtName(stem + "." + t) == "." + t
  {
    var p := stem + "." + t;
    assert '/' !in p;
    ExtNameOfPlainName(p);
    ComponentExtensionOfStem(stem, t);
  }

  /** basename with a suffix as long as the extension, as the handlers call
      it: the extension is removed exactly when the suffix equals it
      character for character, and otherwise the whole final component is
      kept. */
  lemma {:induction false} BaseNameWithExtensionLengthSuffix(p: string, suffix: string)
    requires ExtName(p) != "" && |suffix| == |ExtName(p)|
    ensures suffix == ExtName(p) ==> BaseName(p, suffix) == LastSegment(p)[..|LastSegment(p)| - |suffix|]
    ensures suffix != ExtName(p) ==> BaseName(p, suffix) == LastSegment(p)
  {
    var seg := LastSegment(p);
    var e := ExtName(p);
    ExtNameSpec(p);
    assert |e| < |seg| <= |p|;
    assert EndsWith(seg, e);
    assert |suffix| != 0 && |suffix| <= |p| && suffix != p;
    if suffix == e {
      assert BaseName(p, suffix) == seg[..|seg| - |suffix|];
    } else {
      assert seg[|seg| - |suffix|..] == e;
      assert !EndsWith(seg, suffix) && !(|seg| < |suffix|);
      assert BaseName(p, suffix) == seg;
    }
  }

  // ToLower touches neither '/' nor '.', so the path functions commute with it.

  /** Lower-casing a slice is slicing the lower-cased string. */
  lemma {:induction false} ToLowerSlice(s: string, i: nat, j: nat)
    requires i <= j <= |s|
    ensures ToLower(s[i..j]) == ToLower(s)[i..j]
  {
    ToLowerSpec(s);
    ToLowerSpec(s[i..j]);
  }

  /** Lower-casing commutes with stripping trailing slashes. */
  lemma {:induction false} StripTrailingSlashesLower(p: string)
    ensures StripTrailingSlashes(ToLower(p)) == ToLower(StripTrailingSlashes(p))
  {
    if |p| > 0 {
      ToLowerAt(p, |p| - 1);
    }
    if |p| > 0 && p[|p| - 1] == '/' {
      ToLowerSlice(p, 0, |p| - 1);
      StripTrailingSlashesLower(p[..|p| - 1]);
    }
  }

  /** Lower-casing commutes with taking the part after the last slash. */
  lemma {:induction false} AfterLastSlashLower(q: string)
    ensures AfterLastSlash(ToLower(q)) == ToLower(AfterLastSlash(q))
  {
    match LastIndexOf(q, '/')
    case None =>
      assert AfterLastSlash(ToLower(q)) == ToLower(q) by { LastIndexOfLower(q, '/'); }
    case Some(i) =>
      assert AfterLastSlash(ToLower(q)) == ToLower(q)[i + 1..] by { LastIndexOfLower(q, '/'); }
      assert ToLower(q[i + 1..]) == ToLower(q)[i + 1..] by {
        ToLowerSlice(q, i + 1, |q|);
        assert q[i + 1..|q|] == q[i + 1..];
      }
  }

  /** Lower-casing does not move a character that is not a letter. */
  lemma {:induction false} LastIndexOfLower(s: string, c: char)
    requires !('A' <= c <= 'Z') && !('a' <= c <= 'z')
    ensures LastIndexOf(ToLower(s), c) == LastIndexOf(s, c)
  {
    if |s| > 0 {
      var ls := ToLower(s);
      ToLowerAt(s, |s| - 1);
      if s[|s| - 1] != c {
        ToLowerSlice(s, 0, |s| - 1);
        assert ls[..|ls| - 1] == ToLower(s[..|s| - 1]);
        LastIndexOfLower(s[..|s| - 1], c);
      }
    }
  }

  /** Lower-casing commutes with taking the final component. */
  lemma {:induction false} LastSegmentLower(p: string)
    ensures LastSegment(ToLower(p)) == ToLower(LastSegment(p))
  {
    StripTrailingSlashesLower(p);
    AfterLastSlashLower(StripTrailingSlashes(p));
  }

  /** A string is ".." exactly when its lower-cased form is. */
  lemma {:induction false} DotDotLower(s: string)
    ensures ToLower(s) == ".." <==> s == ".."
  {
    if |s| == 2 {
      ToLowerAt(s, 0);
      ToLowerAt(s, 1);
    }
  }

  /** Lower-casing commutes with taking a component's extension. */
  lemma {:induction false} ComponentExtensionLower(seg: string)
    ensures ComponentExtension(ToLower(seg)) == ToLower(ComponentExtension(seg))
  {
    var ls := ToLower(seg);
    LastIndexOfLower(seg, '.');
    match LastIndexOf(seg, '.')
    case None =>
      assert ComponentExtension(ls) == "" == ComponentExtension(seg);
    case Some(d) =>
      if d == 0 || seg == ".." {
        assert ComponentExtension(seg) == "";
        assert ComponentExtension(ls) == "" by { DotDotLower(seg); }
      } else {
        assert ComponentExtension(seg) == seg[d..];
        assert ComponentExtension(ls) == ls[d..] by { DotDotLower(seg); }
        ToLowerSlice(seg, d, |seg|);
        assert seg[d..|seg|] == seg[d..];
      }
  }

  /** Lower-casing a path and taking its extension gives the lower-cased
      extension: `extname(p.toLowerCase()) == extname(p).toLowerCase()`. */
  lemma {:induction false} ExtNameLower(p: string)
    ensures ExtName(ToLower(p)) == ToLower(ExtName(p))
  {
    LastSegmentLower(p);
    ComponentExtensionLower(LastSegment(p));
  }
}

=== FILE: routes.dfy ===
/** The request handlers of backend/src/index.ts (`/v1/zoiUpload`,
    `/v1/checkZoI`) and backend/src/controllers/zoiUpload.controller.ts
    (`zoiUploadHandler`, `checkZoIHandler`) as functions from what the
    request and the outside world supply to the response sent. Moving the
    upload, finding Python, running the detection script and reading the CSV
    file are not modelled; their results are parameters. */
module Routes {

  import opened Optional
  import opened JsText
  import opened PosixPath
  import opened Http
  import opened ZoiCsv

  const CsvReadFailedText: string := "Failed to read CSV."
  const CsvEmptyText: string := "CSV is empty."
  const MoveFailedText: string := "File saving failed."
  const ProcessingFailedText: string := "Image processing failed."
  const ParseFailedText: string := "Failed to parse result."
  /** The JSON `message` of the 200 responses. */
  const FetchedMessage: string := "ZoI data fetched."
  const ProcessedMessage: string := "File uploaded and processed!"

  /** Where the controller serves detection images from. */
  const ResultUrlPrefix: string := "http://localhost:3005/result/"

  /** The 200 body of checkZoI: `{ message: 'ZoI data fetched.', filename, zoi }`. */
  datatype ZoiBody = ZoiBody(message: string, filename: string, zoi: seq<Disk>)

  /** checkZoI: the guard, then the CSV text (None when it could not be
      read), then the lookup under the upload's key. */
  function CheckZoI(v: Variant, image: Option<UploadedFile>, csv: Option<string>): Outcome<ZoiBody> {
    match Admit(image)
    case NoFile => Rejection(NoFile)
    case BadType => Rejection(BadType)
    case Admitted(name, ext) =>
      match csv
      case None => ServerError(CsvReadFailedText)
      case Some(data) => Respond(name, Lookup(v, BaseName(name, ext), data))
  }

  /** The response to a lookup made for the upload called filename. */
  function Respond(filename: string, r: LookupResult): Outcome<ZoiBody> {
    match r
    case CsvEmpty => ServerError(CsvEmptyText)
    case NoRow => NotFound(NotFoundMessage)
    case Found(zoi) => Ok(ZoiBody(FetchedMessage, filename, zoi))
  }

  /** Each response of checkZoI and the only requests that get it: a 400
      exactly when the guard refuses the upload, a 500 "Failed to read CSV."
      exactly when the file could not be read, a 500 "CSV is empty." exactly
      when it has fewer than two non-blank lines, a 404 exactly when no data
      row carries the upload's key, and otherwise a 200 naming the upload
      with the entries of the matching row. */
  lemma {:induction false} CheckZoISpec(v: Variant, image: Option<UploadedFile>, csv: Option<string>)
    ensures var r := CheckZoI(v, image, csv);
              !Admit(image).Admitted? ==> r == Rejection(Admit(image))
    ensures var r := CheckZoI(v, image, csv);
              r.BadRequest? <==> !Admit(image).Admitted?
    ensures var r := CheckZoI(v, image, csv);
              r == ServerError(CsvReadFailedText) <==> Admit(image).Admitted? && csv.None?
    ensures var r := CheckZoI(v, image, csv);
              r == ServerError(CsvEmptyText) <==> Admit(image).Admitted? && csv.Some? && |DataLines(csv.value)| < 2
    ensures var r := CheckZoI(v, image, csv);
              r == NotFound(NotFoundMessage) <==>
                && Admit(image).Admitted? && csv.Some? && |DataLines(csv.value)| >= 2
                && NoDataRowMatches(DataLines(csv.value), LookupKey(image.value.name))
    ensures var r := CheckZoI(v, image, csv);
              r.Ok? <==>
                && Admit(image).Admitted? && csv.Some? && |DataLines(csv.value)| >= 2
                && !NoDataRowMatches(DataLines(csv.value), LookupKey(image.value.name))
    ensures var r := CheckZoI(v, image, csv);
              r.ServerError? ==> r.text == CsvReadFailedText || r.text == CsvEmptyText
    ensures var r := CheckZoI(v, image, csv);
              !r.PythonMissing? && (r.NotFound? ==> r.message == NotFoundMessage)
    ensures var r := CheckZoI(v, image, csv);
              r.Ok? ==>
                && Admit(image).Admitted? && csv.Some?
                && r.body.message == FetchedMessage
                && r.body.filename == image.value.name
                && exists j :: IsFirstMatch(DataLines(csv.value), LookupKey(image.value.name), j)
                               && r.body.zoi == Entries(v, Split(DataLines(csv.value)[j], ','), DiskColumnCount(DataLines(csv.value)[0]))
  {
    match Admit(image)
    case NoFile =>
    case BadType =>
    case Admitted(name, ext) =>
      match csv
      case None =>
      case Some(data) =>
        LookupSpec(v, BaseName(name, ext), data);
  }

  /** Both variants answer a lookup with the same status, and where both
      find the row the controller's entries are the index route's with the
      first "mm" of each removed. */
  lemma {:induction false} RespondVariantsAgree(name: string, key: string, data: string)
    ensures Respond(name, Lookup(IndexRoute, key, data)).Status() == Respond(name, Lookup(Controller, key, data)).Status()
    ensures var a := Respond(name, Lookup(IndexRoute, key, data)); var b := Respond(name, Lookup(Controller, key, data));
              a.Ok? && b.Ok? ==> MmRemoved(a.body.zoi, b.body.zoi)
  {
    LookupVariantsAgree(key, data);
  }

  /** The route in index.ts and the controller answer every request with the
      same status; where both find a row they return as many entries, the
      controller's being the index route's with the first "mm" removed. */
  lemma {:induction false} CheckZoIVariantsAgree(image: Option<UploadedFile>, csv: Option<string>)
    ensures CheckZoI(IndexRoute, image, csv).Status() == CheckZoI(Controller, image, csv).Status()
    ensures var a := CheckZoI(IndexRoute, image, csv); var b := CheckZoI(Controller, image, csv);
              a.Ok? && b.Ok? ==> MmRemoved(a.body.zoi, b.body.zoi)
  {
    match Admit(image)
    case NoFile =>
    case BadType =>
    case Admitted(name, ext) =>
      match csv
      case None =>
      case Some(data) =>
        RespondVariantsAgree(name, BaseName(name, ext), data);
  }

  /** What the detection script printed, once parsed: the fields the
      controller reads (`zoi` and `detection_image`). */
  datatype DetectionOutput<Z> = DetectionOutput(zoi: Z, detectionImage: Option<string>)

  /** How running the detection script ended: the process failed, its output
      was not JSON the handler could read, or it was parsed. */
  datatype DetectionRun<Z> = ScriptFailed | Unparseable | Parsed(output: DetectionOutput<Z>)

  /** The controller's 200 body: `{ message, filename, zoi, imageUrl }`. */
  datatype UploadBody<Z> = UploadBody(message: string, filename: string, zoi: Z, imageUrl: Option<string>)

  /** The index.ts 200 body: `{ message, filename, zoi: data }`, the whole
      parsed output. */
  datatype RawUploadBody<Z> = RawUploadBody(message: string, filename: string, data: DetectionOutput<Z>)

  /** The controller's `imageUrl`: null unless `detection_image` is a
      non-empty string, otherwise the result prefix followed by that path's
      final component. */
  function ResultImageUrl(detectionImage: Option<string>): (r: Option<string>)
    ensures r.Some? <==> detectionImage.Some? && detectionImage.value != ""
    ensures r.Some? ==>
              && |ResultUrlPrefix| <= |r.value|
              && r.value[..|ResultUrlPrefix|] == ResultUrlPrefix
              && '/' !in r.value[|ResultUrlPrefix|..]
    ensures r.Some? ==> r.value == ResultUrlPrefix + LastSegment(detectionImage.value)
  {
    match detectionImage
    case Some(path) =>
      if path != "" then
        var file := LastSegment(path);
        LastSegmentSpec(path);
        assert (ResultUrlPrefix + file)[|ResultUrlPrefix|..] == file;
        Some(ResultUrlPrefix + file)
      else None
    case None => None
  }

  /** The URL of an image written as `dir/file` ends in `/result/file`,
      whatever the directory. */
  lemma {:induction false} ResultImageUrlOfChild(dir: string, file: string)
    requires file != "" && '/' !in file
    ensures ResultImageUrl(Some(dir + "/" + file)) == Some(ResultUrlPrefix + file)
  {
    LastSegmentOfChild(dir, file);
  }

  /** An image path that is a bare file name is served under that name. */
  lemma {:induction false} ResultImageUrlOfPlainName(file: string)
    requires file != "" && '/' !in file
    ensures ResultImageUrl(Some(file)) == Some(ResultUrlPrefix + file)
  {
    LastSegmentOfPlainName(file);
  }

  /** A trailing slash on a non-empty image path does not change the URL,
      since basename ignores trailing slashes. */
  lemma {:induction false} ResultImageUrlIgnoresTrailingSlash(path: string)
    requires path != ""
    ensures ResultImageUrl(Some(path + "/")) == ResultImageUrl(Some(path))
  {
    LastSegmentIgnoresTrailingSlash(path);
  }

  /** zoiUploadHandler of the controller. */
  function ControllerUpload<Z(==)>(image: Option<UploadedFile>, moved: bool, pythonFound: bool, run: DetectionRun<Z>)
    : (r: Outcome<UploadBody<Z>>)
    ensures !Admit(image).Admitted? ==> r == Rejection(Admit(image))
    ensures r.BadRequest? <==> !Admit(image).Admitted?
    ensures r == ServerError(MoveFailedText) <==> Admit(image).Admitted? && !moved
    ensures r == PythonMissing(PythonMissingError, PythonMissingCode) <==> Admit(image).Admitted? && moved && !pythonFound
    ensures r == ServerError(ProcessingFailedText) <==> Admit(image).Admitted? && moved && pythonFound && run.ScriptFailed?
    ensures r == ServerError(ParseFailedText) <==> Admit(image).Admitted? && moved && pythonFound && run.Unparseable?
    ensures r.Ok? <==> Admit(image).Admitted? && moved && pythonFound && run.Parsed?
    ensures !r.NotFound? && (r.PythonMissing? ==> r == PythonMissing(PythonMissingError, PythonMissingCode))
    ensures r.Ok? ==>
              && r.body == UploadBody(ProcessedMessage, image.value.name, run.output.zoi, r.body.imageUrl)
              && r.body.imageUrl == ResultImageUrl(run.output.detectionImage)
  {
    match Admit(image)
    case NoFile => Rejection(NoFile)
    case BadType => Rejection(BadType)
    case Admitted(name, _) =>
      if !moved then ServerError(MoveFailedText)
      else if !pythonFound then PythonMissing(PythonMissingError, PythonMissingCode)
      else
        match run
        case ScriptFailed => ServerError(ProcessingFailedText)
        case Unparseable => ServerError(ParseFailedText)
        case Parsed(out) => Ok(UploadBody(ProcessedMessage, name, out.zoi, ResultImageUrl(out.detectionImage)))
  }

  /** The `/v1/zoiUpload` route of index.ts: no interpreter probe (a fixed
      Python path is used) and the whole parsed output is returned. */
  function IndexUpload<Z(==)>(image: Option<UploadedFile>, moved: bool, run: DetectionRun<Z>)
    : (r: Outcome<RawUploadBody<Z>>)
    ensures !Admit(image).Admitted? ==> r == Rejection(Admit(image))
    ensures r.BadRequest? <==> !Admit(image).Admitted?
    ensures r == ServerError(MoveFailedText) <==> Admit(image).Admitted? && !moved
    ensures r == ServerError(ProcessingFailedText) <==> Admit(image).Admitted? && moved && run.ScriptFailed?
    ensures r == ServerError(ParseFailedText) <==> Admit(image).Admitted? && moved && run.Unparseable?
    ensures !r.PythonMissing? && !r.NotFound?
    ensures r.Ok? <==> Admit(image).Admitted? && moved && run.Parsed?
    ensures r.Ok? ==> r.body == RawUploadBody(ProcessedMessage, image.value.name, run.output)
  {
    match Admit(image)
    case NoFile => Rejection(NoFile)
    case BadType => Rejection(BadType)
    case Admitted(name, _) =>
      if !moved then ServerError(MoveFailedText)
      else
        match run
        case ScriptFailed => ServerError(ProcessingFailedText)
        case Unparseable => ServerError(ParseFailedText)
        case Parsed(out) => Ok(RawUploadBody(ProcessedMessage, name, out))
  }

  /** For outputs of the shape `{ zoi, detection_image }` and wherever the
      controller finds Python, the two upload handlers answer with the same
      status, message and file name; the controller's `zoi` is the `zoi`
      field of the whole output that index.ts sends as its `zoi`. */
  lemma {:induction false} UploadHandlersAgree<Z>(image: Option<UploadedFile>, moved: bool, run: DetectionRun<Z>)
    ensures ControllerUpload(image, moved, true, run).Status() == IndexUpload(image, moved, run).Status()
    ensures var a := ControllerUpload(image, moved, true, run); var b := IndexUpload(image, moved, run);
              a.Ok? ==> b.Ok? && a.body.message == b.body.message && a.body.filename == b.body.filename && a.body.zoi == b.body.data.zoi
  {
  }
}

=== FILE: zoi_csv.dfy ===
/** The reference lookup behind `/v1/checkZoI`: the CSV text is split into
    lines, blank lines are dropped, the first line is the header whose cells
    after the first name the disk columns, and the first data row whose
    first cell equals the upload's key supplies one entry per non-empty disk
    cell. */
module ZoiCsv {

  import opened Optional
  import opened JsText

  /** The two copies of the handler differ only in the entry value: the
      route in index.ts keeps the trimmed cell, the controller removes the
      first "mm" from it before converting it to a number. */
  datatype Variant = IndexRoute | Controller

  /** One `{ diameter_mm }` entry of the response. */
  datatype Disk = Disk(diameterMm: string)

  /** The three ends of the lookup. */
  datatype LookupResult = CsvEmpty | NoRow | Found(zoi: seq<Disk>)

  /** The lines `filter(line => line.trim().length > 0)` keeps, in order. */
  function NonBlank(lines: seq<string>): (r: seq<string>)
    ensures |r| <= |lines|
  {
    if |lines| == 0 then []
    else
      var rest := NonBlank(lines[1..]);
      if Trim(lines[0]) != "" then [lines[0]] + rest else rest
  }

  /** The filter keeps exactly the lines that are not all whitespace. */
  lemma {:induction false} NonBlankMembers(lines: seq<string>)
    ensures forall k :: 0 <= k < |NonBlank(lines)| ==> !Blank(NonBlank(lines)[k])
    ensures forall l :: l in NonBlank(lines) <==> l in lines && !Blank(l)
  {
    if |lines| > 0 {
      NonBlankMembers(lines[1..]);
      TrimEmptyIffBlank(lines[0]);
      assert forall l :: l in lines <==> l == lines[0] || l in lines[1..];
    }
  }

  /** Filtering distributes over concatenation. */
  lemma {:induction false} NonBlankAppend(a: seq<string>, b: seq<string>)
    ensures NonBlank(a + b) == NonBlank(a) + NonBlank(b)
  {
    if |a| == 0 {
      assert a + b == b;
    } else {
      assert (a + b)[0] == a[0];
      assert (a + b)[1..] == a[1..] + b;
      NonBlankAppend(a[1..], b);
      if Trim(a[0]) != "" {
        assert NonBlank(a + b) == [a[0]] + (NonBlank(a[1..]) + NonBlank(b));
        assert NonBlank(a) == [a[0]] + NonBlank(a[1..]);
      } else {
        assert NonBlank(a + b) == NonBlank(a[1..]) + NonBlank(b);
      }
    }
  }

  /** Lines that are all blank are all dropped. */
  lemma {:induction false} NonBlankOfBlankLines(lines: seq<string>)
    requires forall k :: 0 <= k < |lines| ==> Blank(lines[k])
    ensures NonBlank(lines) == []
  {
    if |lines| > 0 {
      TrimEmptyIffBlank(lines[0]);
      NonBlankOfBlankLines(lines[1..]);
    }
  }

  /** The pieces of an all-whitespace string are all whitespace. */
  lemma {:induction false} SplitOfBlank(s: string, sep: char)
    requires Blank(s)
    ensures forall k :: 0 <= k < |Split(s, sep)| ==> Blank(Split(s, sep)[k])
  {
    if |s| > 0 {
      SplitOfBlank(s[1..], sep);
    }
  }

  /** The non-blank lines of the CSV text. */
  function DataLines(data: string): seq<string> {
    NonBlank(Split(data, '\n'))
  }

  /** The trimmed first comma-separated cell of a line (`line.split(',')[0]`). */
  function FirstCell(line: string): string {
    Trim(Split(line, ',')[0])
  }

  /** `rows.find(...)`: the position of the first row whose first cell is key. */
  function FindRow(rows: seq<string>, key: string): (r: Option<nat>)
    ensures r.Some? ==> r.value < |rows| && FirstCell(rows[r.value]) == key
    ensures r.Some? ==> forall j :: 0 <= j < r.value ==> FirstCell(rows[j]) != key
    ensures r.None? ==> forall j :: 0 <= j < |rows| ==> FirstCell(rows[j]) != key
  {
    if |rows| == 0 then None
    else if FirstCell(rows[0]) == key then Some(0)
    else
      match FindRow(rows[1..], key)
      case None => None
      case Some(i) => Some(i + 1)
  }

  /** Rows added after a matching row do not change which row is found. */
  lemma {:induction false} FindRowIgnoresLaterRows(rows: seq<string>, more: seq<string>, key: string)
    requires FindRow(rows, key).Some?
    ensures FindRow(rows + more, key) == FindRow(rows, key)
  {
    var i := FindRow(rows, key).value;
    assert (rows + more)[i] == rows[i];
    assert forall j :: 0 <= j < |rows| ==> (rows + more)[j] == rows[j];
  }

  /** Cell i of a row, or "" past its end (`fields[i] || ''`). */
  function Field(fields: seq<string>, i: nat): string {
    if i < |fields| then fields[i] else ""
  }

  /** The trimmed cell of disk column idx, which is the row's cell idx + 1. */
  function Cell(fields: seq<string>, idx: nat): string {
    Trim(Field(fields, idx + 1))
  }

  /** The entry value the variant makes of a non-empty trimmed cell. */
  function DiskValue(v: Variant, cell: string): string {
    match v
    case IndexRoute => cell
    case Controller => RemoveFirst(cell, "mm")
  }

  /** The disk columns below n whose cell is non-empty. */
  function NonEmptyColumns(fields: seq<string>, n: nat): (cols: seq<nat>)
    ensures |cols| <= n
  {
    if n == 0 then []
    else
      var cols := NonEmptyColumns(fields, n - 1);
      if Cell(fields, n - 1) != "" then cols + [n - 1] else cols
  }

  /** Every listed column is below n and has a non-empty trimmed cell. */
  lemma {:induction false} NonEmptyColumnsFilled(fields: seq<string>, n: nat)
    ensures forall k :: 0 <= k < |NonEmptyColumns(fields, n)| ==> NonEmptyColumns(fields, n)[k] < n
    ensures forall k :: 0 <= k < |NonEmptyColumns(fields, n)| ==> Cell(fields, NonEmptyColumns(fields, n)[k]) != ""
  {
    if n > 0 {
      NonEmptyColumnsFilled(fields, n - 1);
      var cols := NonEmptyColumns(fields, n - 1);
      var cols' := NonEmptyColumns(fields, n);
      if Cell(fields, n - 1) != "" {
        assert cols' == cols + [n - 1];
        forall k | 0 <= k < |cols'| ensures cols'[k] < n && Cell(fields, cols'[k]) != "" {
          if k < |cols| {
            assert cols'[k] == cols[k];
          }
        }
      } else {
        assert cols' == cols;
      }
    }
  }

  /** The columns are listed in increasing order. */
  lemma {:induction false} NonEmptyColumnsIncreasing(fields: seq<string>, n: nat)
    ensures forall k, l :: 0 <= k < l < |NonEmptyColumns(fields, n)| ==>
              NonEmptyColumns(fields, n)[k] < NonEmptyColumns(fields, n)[l]
  {
    if n > 0 {
      NonEmptyColumnsIncreasing(fields, n - 1);
      NonEmptyColumnsFilled(fields, n - 1);
      var cols := NonEmptyColumns(fields, n - 1);
      if Cell(fields, n - 1) != "" {
        var cols' := cols + [n - 1];
        assert NonEmptyColumns(fields, n) == cols';
        forall k, l | 0 <= k < l < |cols'| ensures cols'[k] < cols'[l] {
          assert cols'[k] == cols[k] < n - 1;
          if l < |cols| {
            assert cols'[l] == cols[l];
          }
        }
      }
    }
  }

  /** A column below n is listed exactly when its trimmed cell is non-empty. */
  lemma {:induction false} NonEmptyColumnsMembers(fields: seq<string>, n: nat)
    ensures forall idx :: 0 <= idx < n ==> (idx in NonEmptyColumns(fields, n) <==> Cell(fields, idx) != "")
  {
    if n > 0 {
      NonEmptyColumnsMembers(fields, n - 1);
      NonEmptyColumnsFilled(fields, n - 1);
      var cols := NonEmptyColumns(fields, n - 1);
      assert n - 1 !in cols;
      if Cell(fields, n - 1) != "" {
        assert NonEmptyColumns(fields, n) == cols + [n - 1];
      }
    }
  }

  /** `diskColumns.map(...).filter(disk => disk !== null)` over the first n
      disk columns: an entry for each non-empty trimmed cell, in column order. */
  function Entries(v: Variant, fields: seq<string>, n: nat): (r: seq<Disk>)
    ensures |r| <= n
  {
    if n == 0 then []
    else
      var cell := Cell(fields, n - 1);
      Entries(v, fields, n - 1) + (if cell != "" then [Disk(DiskValue(v, cell))] else [])
  }

  /** Entry k is built from the k-th non-empty column: the entries are the
      non-empty cells, in column order, and nothing else. */
  lemma {:induction false} EntriesFollowColumns(v: Variant, fields: seq<string>, n: nat)
    ensures |Entries(v, fields, n)| == |NonEmptyColumns(fields, n)|
    ensures forall k :: 0 <= k < |Entries(v, fields, n)| ==>
              Entries(v, fields, n)[k] == Disk(DiskValue(v, Cell(fields, NonEmptyColumns(fields, n)[k])))
  {
    if n > 0 {
      EntriesFollowColumns(v, fields, n - 1);
      var e := Entries(v, fields, n - 1);
      var cols := NonEmptyColumns(fields, n - 1);
      var cell := Cell(fields, n - 1);
      if cell != "" {
        var e' := Entries(v, fields, n);
        var cols' := NonEmptyColumns(fields, n);
        assert e' == e + [Disk(DiskValue(v, cell))];
        assert cols' == cols + [n - 1];
        forall k | 0 <= k < |e'| ensures e'[k] == Disk(DiskValue(v, Cell(fields, cols'[k]))) {
          if k < |e| {
            assert e'[k] == e[k] && cols'[k] == cols[k];
          }
        }
      } else {
        assert Entries(v, fields, n) == e;
        assert NonEmptyColumns(fields, n) == cols;
      }
    }
  }

  /** A column past the end of the row has no entry: missing trailing
      fields count as empty. */
  lemma {:induction false} MissingCellsHaveNoEntry(fields: seq<string>, n: nat, idx: nat)
    requires |fields| <= idx + 1
    ensures idx !in NonEmptyColumns(fields, n)
  {
    NonEmptyColumnsMembers(fields, n);
    NonEmptyColumnsFilled(fields, n);
    assert Cell(fields, idx) == "" by {
      assert Field(fields, idx + 1) == "";
      TrimEmptyIffBlank("");
    }
  }

  /** ys is xs with the first "mm" of each diameter removed. */
  predicate MmRemoved(xs: seq<Disk>, ys: seq<Disk>) {
    |xs| == |ys| && forall k :: 0 <= k < |ys| ==> ys[k].diameterMm == RemoveFirst(xs[k].diameterMm, "mm")
  }

  /** The controller's entries are the index route's entries with the first
      "mm" of each removed. */
  lemma {:induction false} ControllerRemovesFirstMm(fields: seq<string>, n: nat)
    ensures MmRemoved(Entries(IndexRoute, fields, n), Entries(Controller, fields, n))
  {
    var c := Entries(Controller, fields, n);
    var x := Entries(IndexRoute, fields, n);
    var cols := NonEmptyColumns(fields, n);
    EntriesFollowColumns(Controller, fields, n);
    EntriesFollowColumns(IndexRoute, fields, n);
    forall k | 0 <= k < |c| ensures c[k].diameterMm == RemoveFirst(x[k].diameterMm, "mm") {
      var cell := Cell(fields, cols[k]);
      assert c[k] == Disk(DiskValue(Controller, cell));
      assert x[k] == Disk(DiskValue(IndexRoute, cell));
    }
  }

  /** The number of disk columns the header line names:
      `headers.slice(1).length`. */
  function DiskColumnCount(header: string): nat {
    |Split(header, ',')| - 1
  }

  /** No data row (line 1 onwards) has key as its first cell. */
  predicate NoDataRowMatches(lines: seq<string>, key: string) {
    forall j :: 1 <= j < |lines| ==> FirstCell(lines[j]) != key
  }

  /** Row j (j >= 1, the header being line 0) is the first data row whose
      first cell is key. */
  predicate IsFirstMatch(lines: seq<string>, key: string, j: int) {
    && 1 <= j < |lines|
    && FirstCell(lines[j]) == key
    && forall i :: 1 <= i < j ==> FirstCell(lines[i]) != key
  }

  /** The lookup over the non-blank lines: too few lines, no matching data
      row, or the entries of the first matching one. */
  function LookupLines(v: Variant, key: string, lines: seq<string>): LookupResult {
    if |lines| < 2 then CsvEmpty
    else
      match FindRow(lines[1..], key)
      case None => NoRow
      case Some(i) => Found(Entries(v, Split(lines[1..][i], ','), DiskColumnCount(lines[0])))
  }

  /** The lookup, from the CSV text already read. */
  function Lookup(v: Variant, key: string, data: string): LookupResult {
    LookupLines(v, key, DataLines(data))
  }

  /** Fewer than two non-blank lines is the "CSV is empty" error and never
      a match; the header (line 0) is never a candidate; a missing row is
      reported; otherwise the entries come from the first matching data row
      and number at most the header's disk columns (its commas). */
  lemma {:induction false} LookupSpec(v: Variant, key: string, data: string)
    ensures var r := Lookup(v, key, data); var lines := DataLines(data);
              r.CsvEmpty? <==> |lines| < 2
    ensures var r := Lookup(v, key, data); var lines := DataLines(data);
              r.NoRow? <==> |lines| >= 2 && NoDataRowMatches(lines, key)
    ensures var r := Lookup(v, key, data); var lines := DataLines(data);
              r.Found? ==>
                exists j :: IsFirstMatch(lines, key, j)
                            && r.zoi == Entries(v, Split(lines[j], ','), DiskColumnCount(lines[0]))
    ensures var r := Lookup(v, key, data); var lines := DataLines(data);
              r.Found? ==> |r.zoi| <= Count(lines[0], ',')
  {
    var lines := DataLines(data);
    if |lines| >= 2 {
      var rows := lines[1..];
      assert forall j :: 1 <= j < |lines| ==> lines[j] == rows[j - 1];
      SplitLength(lines[0], ',');
      match FindRow(rows, key)
      case None =>
      case Some(i) =>
        assert IsFirstMatch(lines, key, i + 1);
    }
  }

  /** Lines after a matching data row do not change the result. */
  lemma {:induction false} LookupLinesIgnoresLaterLines(v: Variant, key: string, lines: seq<string>, extra: seq<string>)
    requires LookupLines(v, key, lines).Found?
    ensures LookupLines(v, key, lines + extra) == LookupLines(v, key, lines)
  {
    var lines' := lines + extra;
    assert lines'[0] == lines[0];
    assert lines'[1..] == lines[1..] + extra;
    FindRowIgnoresLaterRows(lines[1..], extra, key);
    var i := FindRow(lines[1..], key).value;
    assert lines'[1..][i] == lines[1..][i];
  }

  /** The non-blank lines of `data \n more` are those of data followed by
      those of more. */
  lemma {:induction false} DataLinesAppend(data: string, more: string)
    ensures DataLines(data + "\n" + more) == DataLines(data) + NonBlank(Split(more, '\n'))
  {
    assert data + "\n" + more == data + ['\n'] + more;
    SplitAppend(data, more, '\n');
    NonBlankAppend(Split(data, '\n'), Split(more, '\n'));
  }

  /** Only the first matching data row counts: whatever text follows a CSV
      in which the key was found leaves the result unchanged. */
  lemma {:induction false} FirstMatchWins(v: Variant, key: string, data: string, more: string)
    requires Lookup(v, key, data).Found?
    ensures Lookup(v, key, data + "\n" + more) == Lookup(v, key, data)
  {
    DataLinesAppend(data, more);
    LookupLinesIgnoresLaterLines(v, key, DataLines(data), NonBlank(Split(more, '\n')));
  }

  /** Both variants end the lookup the same way; when a row is found they
      give as many entries, the controller's being the index route's with
      the first "mm" removed. */
  lemma {:induction false} LookupVariantsAgree(key: string, data: string)
    ensures var a := Lookup(IndexRoute, key, data); var b := Lookup(Controller, key, data);
              (a.CsvEmpty? <==> b.CsvEmpty?) && (a.NoRow? <==> b.NoRow?) && (a.Found? <==> b.Found?)
    ensures var a := Lookup(IndexRoute, key, data); var b := Lookup(Controller, key, data);
              a.Found? && b.Found? ==> MmRemoved(a.zoi, b.zoi)
  {
    var lines := DataLines(data);
    if |lines| >= 2 {
      match FindRow(lines[1..], key)
      case None =>
      case Some(i) =>
        ControllerRemovesFirstMm(Split(lines[1..][i], ','), DiskColumnCount(lines[0]));
    }
  }

  /** Whitespace-only text appended as further lines is ignored. */
  lemma {:induction false} BlankLinesIgnored(v: Variant, key: string, data: string, pad: string)
    requires Blank(pad)
    ensures Lookup(v, key, data + "\n" + pad) == Lookup(v, key, data)
  {
    assert DataLines(data + "\n" + pad) == DataLines(data) by {
      DataLinesAppend(data, pad);
      SplitOfBlank(pad, '\n');
      NonBlankOfBlankLines(Split(pad, '\n'));
      assert NonBlank(Split(data, '\n')) + [] == NonBlank(Split(data, '\n'));
    }
  }
}
